=== FILE: README.md ===
# Genders file transformer — a Dafny model

A genders file associates cluster host names with named attributes. Each
attribute may carry a value: a boolean, an unsigned 64-bit number or a
verbatim string. An attribute without a value is a flag. This project models
the part of the Rust crate that turns the pest syntax tree of such a file into
the validated lookup `host -> (attribute name -> optional value)`. It then
proves what that lookup is and when the whole file is rejected.

The model follows the source's three stages:

- `PestTree` is the concrete syntax tree as pest hands it over. A pair has a
  rule, the text of its span, and its inner pairs.
- `FromStr` holds `bool::from_str` and `u64::from_str`, which the leaf rules
  apply to their text. It also defines a canonical decimal spelling, used to
  state round trips.
- `Ast` holds the typed values and attributes. It has the two hand-written
  conversions (`AttributeValue::from_pest` and `Attribute::from_pest`). It also
  has the walk from host nodes to the typed `GendersFile`, and canonical
  trees for each typed value (the inverse direction).
- `Transform` is `TryFrom<GendersFile> for Genders`. It folds the host
  entries in document order, rejects the file on the first duplicate
  attribute or host, and `Parse` composes it with the tree walk.
- `Scenario` is a worked two-host example.

Strings are owned `seq<char>` rather than borrows of the input buffer. A
`u64` is a subset of `nat` below 2^64.

Three behaviours are worth stating. The model follows the code in the first two and departs from it on purpose in the third:

- An unrecognised rule at a value position does not raise a separate
  "internal shape" error. It returns the tree walk's `NoMatch`, like every
  other shape mismatch.
- The numeric leaf is read with `u64::from_str`. That function also accepts a
  leading `+`. The digits-only token shape is up to the grammar.
- A leaf whose text does not convert makes `Result::unwrap` panic. The model
  departs here and returns the explicit errors `BadBool` / `BadNumber`
  instead. A number past 2^64-1 is still always an error, never a wrapped
  value.

## Model

| member | source | states |
|---|---|---|
| FromStr.ParseBool | src/genders.rs:51-56 | a boolean leaf converts to `b` exactly when its text is the spelling of `b`, `"true"` or `"false"`; every other text is rejected |
| FromStr.ParseU64 | src/genders.rs:58-63 | on a digit string the conversion succeeds exactly when the decimal value is below 2^64, and then yields that value; any accepted text is a digit string, or a `+` followed by a non-empty digit string, so `"1a"`, `"+"`, `"++1"` and `"-0"` are rejected |
| FromStr.ParseU64OfDecimal | src/genders.rs:58-63 | reading back the decimal spelling of any `u64` gives that number |
| FromStr.DecimalValueOfDecimal | src/genders.rs:58-63 | the decimal spelling of `n` denotes `n` |
| FromStr.DecimalValueLeadingZero | src/genders.rs:58-63 | a leading zero does not change the value of a digit string |
| FromStr.PlusSignIgnored | src/genders.rs:58-63 | a leading `+` before a digit string is accepted and ignored |
| Ast.ValueFromPest | src/genders.rs:102-119 | the result is decided by the leaf reached through `attribute_value` wrappers: no leaf gives NoMatch; a success's variant matches the leaf's rule; boolean succeeds exactly on `true`/`false` and otherwise fails with BadBool of the text; numeric succeeds exactly when the `u64` parse does, with that value, and otherwise fails with BadNumber of the text; string gives the text unchanged; any other rule gives NoMatch; every failure is a conversion error |
| Ast.ValueRoundTrip | src/genders.rs:102-119 | converting the canonical leaf of any value, inside any number of wrappers, gives that value back |
| Ast.AttributeFromPest | src/genders.rs:121-139 | succeeds exactly on an `attribute` pair with a name child whose optional value child converts; the name is the first child's text; the value is None exactly when there is no second child; a missing pair, a wrong rule or a missing name is NoMatch; when the value child fails, its own error is passed on unchanged (an unknown value rule gives NoMatch) |
| Ast.AttributeRoundTrip | src/genders.rs:121-139 | converting the canonical `attribute` pair of any attribute gives that attribute back, whatever the enclosing spans |
| Ast.FlagIsNotEmptyString | src/genders.rs:131-137 | a name with no value child is a flag (None), distinct from a value child holding the empty string |
| Ast.AttributesFromPest | src/genders.rs:78-82 | an attribute list converts exactly when every attribute does, element by element and in order; a failure is the error of the first attribute that fails |
| Ast.AttributeListAsWritten | src/genders.rs:126-136 | the list walk as the library runs it: every attribute it returns is the conversion of the pair at its position, and it returns at most as many attributes as there are pairs |
| Ast.AsWrittenAgrees | src/genders.rs:126-136 | whenever every attribute converts, the walk as written returns exactly the intended walk's attributes |
| Ast.AsWrittenSuccess | src/genders.rs:126-136 | the walk as written succeeds exactly when the intended walk does, or when only the last attribute fails and it fails with NoMatch |
| Ast.AsWrittenExtraneous | src/genders.rs:126-136 | as written, when an attribute before the last one fails with NoMatch after convertible ones, the list fails with Extraneous |
| Ast.AsWrittenDropsFailingLast | src/genders.rs:126-136 | as written, when only the last attribute fails with NoMatch, the list converts to the attributes before it, silently dropping the last one |
| Ast.DroppedAttributeExample | src/genders.rs:126-136 | a flag followed by an attribute with an unknown value rule: as written the host keeps only the flag; the intended walk fails with NoMatch |
| Ast.FileFromPest | src/genders.rs:84-96 | the file converts exactly when every host's list does; each host keeps its name and position; a failure is the error of the first failing host |
| Ast.FileRoundTrip | src/genders.rs:84-96 | the tree walk on the canonical nodes of a typed file returns that file, with nothing lost, reordered or added |
| Transform.InsertAttributes | src/genders.rs:147-152 | the inner loop succeeds exactly when the names are pairwise distinct and new to the map; the result has the old keys plus the list's names, old bindings kept and each name bound to its value; a failure is a DuplicateAttribute for this host naming an attribute of the list that was already present, in the map or earlier in the list |
| Transform.InsertHosts | src/genders.rs:145-158 | the outer loop succeeds exactly when host names are distinct, each host's attributes are distinct and the names are new; each host is then bound to exactly its own attribute map; every failure is a duplicate error |
| Transform.FromGendersFile | src/genders.rs:141-159 | the transform succeeds exactly on a well-formed file and then returns its model (host keys equal the entry names, each bound to exactly its attributes); an empty file gives the empty map |
| Transform.Parse | src/genders.rs:19-26 | a tree-walk failure anywhere is reported as a conversion error before any duplicate check; once the walk succeeds, the result is exactly the fold's result, so its DuplicateHost / DuplicateAttribute error is passed on unchanged; the result succeeds exactly on a well-formed file and is then its model |
| Transform.FirstDuplicateInList | src/genders.rs:148-151 | within one host, the first attribute whose name was already seen is the one reported |
| Transform.FirstDuplicateAttributeIn | src/genders.rs:146-155 | after valid hosts, a host whose list repeats an attribute is reported as DuplicateAttribute, even when its name also repeats |
| Transform.FirstDuplicateHostIn | src/genders.rs:146-155 | after valid hosts, a host with distinct attributes and a name already seen is reported as DuplicateHost |
| Transform.DuplicateAttributeReported | src/genders.rs:144-158 | a file whose first offending host repeats an attribute fails with DuplicateAttribute naming that attribute and host |
| Transform.DuplicateHostReported | src/genders.rs:144-158 | a file whose first offending host has distinct attributes and a repeated name fails with DuplicateHost naming it |
| Transform.ErrorIsGenuine | src/genders.rs:146-155 | a reported duplicate host is an entry whose name already occurred; a reported duplicate attribute belongs to an entry of that host whose list holds that name twice |
| Transform.ModelsUnique | src/genders.rs:145-157 | the model of a list of entries is unique, so the fold's result is fully determined: nothing merged, dropped or invented |
| Transform.ParseRoundTrip | src/genders.rs:22-26 | the walk followed by the fold, on the canonical trees of a typed file, equals the fold of that file; for a well-formed file it succeeds with the file's model |
| Scenario.ScenarioWalk | src/genders.rs:102-139 | the example tree types `4` and `8` as numbers, `a12` as a string, `true` as a boolean and `compute` as a flag |
| Scenario.ScenarioFold | src/genders.rs:141-159 | the example file folds to the expected two-host lookup |
| Scenario.ScenarioParses | src/genders.rs:19-26 | the example tree parses to `{node1: {cpu_count: 4, rack: "a12", compute: none}, node2: {cpu_count: 8, gpu: true}}` |

## Left out

- Text to tree: the pest parser (`GendersParser`) and its grammar file `genders.pest` are not part of this model. Trees are taken as input, so syntax errors are not modelled.
- `src/main.rs` is left out: it reads the file `genders` from disk and prints the result. That is pure I/O.
- The `println!` diagnostic on an unrecognised value rule is left out. Only the returned `NoMatch` is modelled.
- Borrowed `&'src str` views are left out; owned strings stand in for them.
- `HashMap` iteration order is left out. The model uses Dafny `map`s, where only key lookup matters.
- `anyhow` message formatting is left out. Errors are a small datatype carrying the names the messages carry.
- The derived `from_pest` conversions for `Ident`, `HostEntry` and `EOI` are library-generated, and the model takes their output directly: a `HostNode` has the ident text and the inner pairs of its attribute list. The `EOI` field carries no data. The two list loops are modelled: the `Vec<Attribute>` loop of `AttributeList` by `Ast.AttributesFromPest` (intended) and `Ast.AttributeListAsWritten` (as written), and the `Vec<HostEntry>` loop of `GendersFile` by `Ast.FileFromPest`.
- Ast.AttributesFromPest: the model aborts the file on the first attribute conversion error. The code behaves differently. `Attribute::from_pest` takes its pair (src/genders.rs:126) before it checks the rule (127). The `from_pest` crate's `Vec<T>` loop ends the list at the first `NoMatch`. So a malformed last attribute is silently dropped and its host still converts. A malformed earlier attribute leaves pairs behind, and the derived `AttributeList` then fails with `Extraneous`. That behaviour is modelled separately by `Ast.AttributeListAsWritten` (see Findings). `Parse` uses the intended walk.
- Ast.FileFromPest: uses the intended list walk `Ast.AttributesFromPest`, not the library's as-written walk, so it does not reproduce the silent drop of a last malformed attribute.
- Transform.Parse: builds on `Ast.FileFromPest` and so also uses the intended list walk, not the as-written one.
- Ast.ValueFromPest: the derived leaf conversions (`AttributeValueBool` and the others) may reject a leaf pair that has inner pairs. That derive code is not part of this model, and the model ignores a leaf's inner pairs.
- A panic of `Result::unwrap` (a boolean leaf that is not `true`/`false`, or a numeric leaf that does not fit in a `u64`) ends the process in the source. The model returns it as the errors `BadBool` and `BadNumber`.

## Findings

| source | as written | input that shows it | evidently intended | confidence | as-written member | corrected member |
|---|---|---|---|---|---|---|
| src/genders.rs:126-136 | `Attribute::from_pest` consumes its pair before returning `NoMatch`, and the library's list loop stops on `NoMatch`, so a last attribute that fails to convert is dropped and its host still converts | a host with a flag `compute` followed by an attribute `gpu` whose value pair has an unrecognised rule | a malformed attribute rejects the file, as the `NoMatch` and the "Bad rule" diagnostic at lines 113-116 signal | not executed; the list loop is library code reconstructed from the `from_pest` crate | Ast.AsWrittenDropsFailingLast | Ast.AttributesFromPest |

=== FILE: ast.dfy ===
/** The typed syntax tree: attribute values, attributes and host entries as
    reconstructed from pest pairs, with the two hand-written conversions
    (`AttributeValue::from_pest` and `Attribute::from_pest`). */
module Ast {
  import opened Wrappers
  import opened FromStr
  import T = PestTree

  /** A typed attribute value: exactly one of three shapes. */
  datatype AttributeValue = Boolean(b: bool) | Number(n: u64) | String(s: string)

  /** A name and an optional value; `None` marks a flag attribute. */
  datatype Attribute = Attribute(name: string, value: Option<AttributeValue>)

  datatype HostEntry = HostEntry(name: string, attributes: seq<Attribute>)

  datatype GendersFile = GendersFile(hosts: seq<HostEntry>)

  /** Everything a parse can stop with. `NoMatch` and `Extraneous` are the
      conversion errors of the tree walk (no pair of the expected shape; inner
      pairs left unconsumed); `BadBool` and `BadNumber` stand for the panics of
      `Result::unwrap` on a leaf whose text does not convert; the duplicate
      errors are the transformer's validation errors. */
  datatype Error =
    | NoMatch
    | Extraneous
    | BadBool(text: string)
    | BadNumber(text: string)
    | DuplicateAttribute(attribute: string, host: string)
    | DuplicateHost(host: string)

  /** The errors the tree walk can raise, as opposed to validation errors. */
  predicate IsConversionError(e: Error)
  {
    e.NoMatch? || e.Extraneous? || e.BadBool? || e.BadNumber?
  }

  /** A host entry as the derived tree walk hands it over: the `ident` text
      and the inner pairs of its `attribute_list`, not yet converted. */
  datatype HostNode = HostNode(name: string, attributes: seq<T.Pair>)

  /** The rule whose conversion yields each shape of value. */
  function RuleOf(v: AttributeValue): T.Rule
  {
    match v
    case Boolean(_) => T.AttributeValueBool
    case Number(_) => T.AttributeValueNumeric
    case String(_) => T.AttributeValueString
  }

  /** The three rules that produce a value. */
  predicate IsLeafRule(rule: T.Rule)
  {
    rule.AttributeValueBool? || rule.AttributeValueNumeric? || rule.AttributeValueString?
  }

  /** The pair a value position resolves to: the first pair, followed into
      its first inner pair for as long as it is an `attribute_value` wrapper. */
  function ValueLeaf(pairs: seq<T.Pair>): Option<T.Pair>
    decreases pairs
  {
    if |pairs| == 0 then None
    else if pairs[0].rule.AttributeValue? then ValueLeaf(pairs[0].inner)
    else Some(pairs[0])
  }

  /** `AttributeValue::from_pest`: unwraps `attribute_value`, then picks the
      variant from the rule of the leaf and converts its text. */
  function ValueFromPest(pairs: seq<T.Pair>): (r: Result<AttributeValue, Error>)
    ensures ValueLeaf(pairs).None? ==> r == Failure(NoMatch)
    ensures r.Failure? ==> IsConversionError(r.error)
    ensures r.Success? ==>
              ValueLeaf(pairs).Some? && ValueLeaf(pairs).value.rule == RuleOf(r.value)
    ensures ValueLeaf(pairs).Some? ==>
              var leaf := ValueLeaf(pairs).value;
              && (leaf.rule.AttributeValueBool? ==>
                    forall b: bool {:trigger Boolean(b)} ::
                      r == Success(Boolean(b)) <==> leaf.text == BoolText(b))
              && (leaf.rule.AttributeValueNumeric? ==>
                    (r.Success? <==> ParseU64(leaf.text).Some?) &&
                    (r.Success? ==> r.value == Number(ParseU64(leaf.text).value)))
              && (leaf.rule.AttributeValueBool? && ParseBool(leaf.text).None? ==> r == Failure(BadBool(leaf.text)))
              && (leaf.rule.AttributeValueNumeric? && ParseU64(leaf.text).None? ==> r == Failure(BadNumber(leaf.text)))
              && (leaf.rule.AttributeValueString? ==> r == Success(String(leaf.text)))
              && (!IsLeafRule(leaf.rule) ==> r == Failure(NoMatch))
    decreases pairs
  {
    if |pairs| == 0 then Failure(NoMatch)
    else
      var pair := pairs[0];
      match pair.rule
      case AttributeValue => ValueFromPest(pair.inner)
      case AttributeValueBool =>
        (match ParseBool(pair.text)
         case Some(b) => Success(Boolean(b))
         case None => Failure(BadBool(pair.text)))
      case AttributeValueNumeric =>
        (match ParseU64(pair.text)
         case Some(n) => Success(Number(n))
         case None => Failure(BadNumber(pair.text)))
      case AttributeValueString => Success(String(pair.text))
      case _ => Failure(NoMatch)
  }

  /** `Attribute::from_pest`: the first pair must be an `attribute`; its first
      inner pair is the name, its optional second inner pair the value. */
  function AttributeFromPest(pairs: seq<T.Pair>): (r: Result<Attribute, Error>)
    ensures r.Success? <==>
              && |pairs| > 0 && pairs[0].rule.Attribute? && |pairs[0].inner| > 0
              && (|pairs[0].inner| > 1 ==> ValueFromPest([pairs[0].inner[1]]).Success?)
    ensures r.Success? ==>
              && r.value.name == pairs[0].inner[0].text
              && (r.value.value.None? <==> |pairs[0].inner| == 1)
              && (r.value.value.Some? ==> ValueFromPest([pairs[0].inner[1]]) == Success(r.value.value.value))
    ensures r.Failure? && (|pairs| == 0 || !pairs[0].rule.Attribute? || |pairs[0].inner| == 0) ==>
              r.error == NoMatch
    ensures |pairs| > 0 && pairs[0].rule.Attribute? && |pairs[0].inner| > 1 &&
            ValueFromPest([pairs[0].inner[1]]).Failure? ==>
              r == Failure(ValueFromPest([pairs[0].inner[1]]).error)
    ensures r.Failure? ==> IsConversionError(r.error)
  {
    if |pairs| == 0 then Failure(NoMatch)
    else if !pairs[0].rule.Attribute? then Failure(NoMatch)
    else
      var inner := pairs[0].inner;
      if |inner| == 0 then Failure(NoMatch)
      else if |inner| == 1 then Success(Attribute(inner[0].text, None))
      else
        match ValueFromPest([inner[1]])
        case Success(v) => Success(Attribute(inner[0].text, Some(v)))
        case Failure(e) => Failure(e)
  }

  /** Converts every attribute pair of one list, stopping at the first
      conversion error. */
  function AttributesFromPest(pairs: seq<T.Pair>): (r: Result<seq<Attribute>, Error>)
    ensures r.Success? <==> forall i | 0 <= i < |pairs| :: AttributeFromPest([pairs[i]]).Success?
    ensures r.Success? ==>
              |r.value| == |pairs| &&
              forall i | 0 <= i < |pairs| :: AttributeFromPest([pairs[i]]) == Success(r.value[i])
    ensures r.Failure? ==>
              exists i | 0 <= i < |pairs| ::
                && AttributeFromPest([pairs[i]]) == Failure(r.error)
                && forall j | 0 <= j < i :: AttributeFromPest([pairs[j]]).Success?
    decreases |pairs|
  {
    if |pairs| == 0 then Success([])
    else
      match AttributeFromPest([pairs[0]])
      case Failure(e) => Failure(e)
      case Success(a) =>
        match AttributesFromPest(pairs[1..])
        case Failure(e) => Failure(e)
        case Success(rest) => Success([a] + rest)
  }

  /** The derived `attribute_list` walk as the `from_pest` crate runs it:
      attributes are collected until one conversion returns `NoMatch`, and
      any inner pair still left is then extraneous. `Attribute::from_pest`
      takes its pair before checking it, so the pair that ended the list is
      consumed: when it was the last one nothing is left over and the list
      succeeds without it. `AttributesFromPest` is the intended behaviour. */
  function AttributeListAsWritten(pairs: seq<T.Pair>): (r: Result<seq<Attribute>, Error>)
    ensures r.Success? ==>
              |r.value| <= |pairs| &&
              forall i | 0 <= i < |r.value| :: AttributeFromPest([pairs[i]]) == Success(r.value[i])
    decreases |pairs|
  {
    if |pairs| == 0 then Success([])
    else
      match AttributeFromPest([pairs[0]])
      case Success(a) =>
        (match AttributeListAsWritten(pairs[1..])
         case Success(rest) => Success([a] + rest)
         case Failure(e) => Failure(e))
      case Failure(NoMatch) => if |pairs| > 1 then Failure(Extraneous) else Success([])
      case Failure(e) => Failure(e)
  }

  /** Whenever the intended walk succeeds, the walk as written returns the
      same attributes. */
  lemma {:induction false} AsWrittenAgrees(pairs: seq<T.Pair>)
    requires AttributesFromPest(pairs).Success?
    ensures AttributeListAsWritten(pairs) == AttributesFromPest(pairs)
    decreases |pairs|
  {
    if |pairs| > 0 {
      AsWrittenAgrees(pairs[1..]);
    }
  }

  /** The walk as written succeeds exactly when the intended walk does, or
      when only the last attribute fails, and with `NoMatch`. */
  lemma {:induction false} AsWrittenSuccess(pairs: seq<T.Pair>)
    ensures AttributeListAsWritten(pairs).Success? <==>
            || AttributesFromPest(pairs).Success?
            || (&& |pairs| > 0
                && AttributesFromPest(pairs[..|pairs| - 1]).Success?
                && AttributeFromPest([pairs[|pairs| - 1]]) == Failure(NoMatch))
    decreases |pairs|
  {
    if |pairs| > 0 {
      var init := pairs[..|pairs| - 1];
      assert forall i | 0 <= i < |init| :: init[i] == pairs[i];
      AsWrittenSuccess(pairs[1..]);
      if |pairs| > 1 {
        var tail := pairs[1..];
        assert tail[..|tail| - 1] == init[1..];
        assert forall i | 0 <= i < |tail| :: tail[i] == pairs[i + 1];
      }
    }
  }

  /** As written, an attribute that fails with `NoMatch` before the last one
      ends the list with pairs left over, which is `Extraneous`. */
  lemma {:induction false} AsWrittenExtraneous(pairs: seq<T.Pair>, i: nat)
    requires i < |pairs| - 1
    requires forall j | 0 <= j < i :: AttributeFromPest([pairs[j]]).Success?
    requires AttributeFromPest([pairs[i]]) == Failure(NoMatch)
    ensures AttributeListAsWritten(pairs) == Failure(Extraneous)
    decreases i
  {
    if i > 0 {
      var tail := pairs[1..];
      assert forall j | 0 <= j < |tail| :: tail[j] == pairs[j + 1];
      AsWrittenExtraneous(tail, i - 1);
    }
  }

  /** As written, a list whose last attribute fails with `NoMatch` converts
      to the attributes before it: the failing one is dropped silently. */
  lemma {:induction false} AsWrittenDropsFailingLast(pairs: seq<T.Pair>)
    requires |pairs| > 0
    requires forall i | 0 <= i < |pairs| - 1 :: AttributeFromPest([pairs[i]]).Success?
    requires AttributeFromPest([pairs[|pairs| - 1]]) == Failure(NoMatch)
    ensures AttributesFromPest(pairs[..|pairs| - 1]).Success?
    ensures AttributeListAsWritten(pairs) == Success(AttributesFromPest(pairs[..|pairs| - 1]).value)
    decreases |pairs|
  {
    var init := pairs[..|pairs| - 1];
    assert forall i | 0 <= i < |init| :: init[i] == pairs[i];
    if |pairs| > 1 {
      var tail := pairs[1..];
      assert forall i | 0 <= i < |tail| :: tail[i] == pairs[i + 1];
      AsWrittenDropsFailingLast(tail);
      assert tail[..|tail| - 1] == init[1..];
    }
  }

  /** The concrete case: a flag followed by an attribute whose value has an
      unknown rule. As written the host keeps only the flag; the intended
      walk rejects the list. */
  const ComputeFlag: T.Pair := T.Pair(T.Attribute, "compute", [T.Pair(T.Ident, "compute", [])])

  const GpuWithUnknownRule: T.Pair :=
    T.Pair(T.Attribute, "gpu=x", [T.Pair(T.Ident, "gpu", []), T.Pair(T.Other("x"), "x", [])])

  lemma DroppedAttributeExample()
    ensures AttributeListAsWritten([ComputeFlag, GpuWithUnknownRule]) == Success([Attribute("compute", None)])
    ensures AttributesFromPest([ComputeFlag, GpuWithUnknownRule]) == Failure(NoMatch)
  {
    var flag, bad := ComputeFlag, GpuWithUnknownRule;
    assert AttributeFromPest([flag]) == Success(Attribute("compute", None));
    AsWrittenDropsFailingLast([flag, bad]);
    assert [flag, bad][..1] == [flag];
    assert AttributesFromPest([flag]).value == [Attribute("compute", None)];
  }

  /** The derived walk from host nodes to the typed file: each host keeps its
      name and gets its attributes converted; the first error aborts. */
  function FileFromPest(nodes: seq<HostNode>): (r: Result<GendersFile, Error>)
    ensures r.Success? <==> forall i | 0 <= i < |nodes| :: AttributesFromPest(nodes[i].attributes).Success?
    ensures r.Success? ==>
              |r.value.hosts| == |nodes| &&
              forall i | 0 <= i < |nodes| ::
                && r.value.hosts[i].name == nodes[i].name
                && AttributesFromPest(nodes[i].attributes) == Success(r.value.hosts[i].attributes)
    ensures r.Failure? ==>
              exists i | 0 <= i < |nodes| ::
                && AttributesFromPest(nodes[i].attributes) == Failure(r.error)
                && forall j | 0 <= j < i :: AttributesFromPest(nodes[j].attributes).Success?
    decreases |nodes|
  {
    if |nodes| == 0 then Success(GendersFile([]))
    else
      match AttributesFromPest(nodes[0].attributes)
      case Failure(e) => Failure(e)
      case Success(attrs) =>
        assert forall i | 0 <= i < |nodes| - 1 :: nodes[1..][i] == nodes[i + 1];
        match FileFromPest(nodes[1..])
        case Failure(e) => Failure(e)
        case Success(rest) => Success(GendersFile([HostEntry(nodes[0].name, attrs)] + rest.hosts))
  }

  // ---------------------------------------------------------------------
  // Canonical trees: the inverse direction, used to state round trips.

  /** The leaf pair a well-behaved grammar produces for a value. */
  function ValueTree(v: AttributeValue): T.Pair
  {
    match v
    case Boolean(b) => T.Pair(T.AttributeValueBool, BoolText(b), [])
    case Number(n) => T.Pair(T.AttributeValueNumeric, Decimal(n), [])
    case String(s) => T.Pair(T.AttributeValueString, s, [])
  }

  /** The inner pairs of an `attribute` pair for `a`: the name, then, when
      there is a value, an `attribute_value` wrapper around its leaf. */
  function AttributeChildren(a: Attribute, valueSpan: string): seq<T.Pair>
  {
    [T.Pair(T.Ident, a.name, [])] +
    match a.value
    case None => []
    case Some(v) => [T.Pair(T.AttributeValue, valueSpan, [ValueTree(v)])]
  }

  /** `depth` nested `attribute_value` wrappers around `leaf`. */
  function Wrapped(depth: nat, leaf: T.Pair): T.Pair
  {
    if depth == 0 then leaf else T.Pair(T.AttributeValue, leaf.text, [Wrapped(depth - 1, leaf)])
  }

  /** Converting the canonical leaf of a value, inside any number of
      wrappers, gives the value back. */
  lemma {:induction false} ValueRoundTrip(v: AttributeValue, depth: nat)
    ensures ValueFromPest([Wrapped(depth, ValueTree(v))]) == Success(v)
    decreases depth
  {
    if depth == 0 {
      match v
      case Number(n) => ParseU64OfDecimal(n);
      case Boolean(b) =>
      case String(s) =>
    } else {
      ValueRoundTrip(v, depth - 1);
      assert Wrapped(depth, ValueTree(v)).inner == [Wrapped(depth - 1, ValueTree(v))];
    }
  }

  /** Converting the canonical `attribute` pair of an attribute gives the
      attribute back, whatever the spans of the enclosing pairs are. */
  lemma AttributeRoundTrip(a: Attribute, span: string, valueSpan: string)
    ensures AttributeFromPest([T.Pair(T.Attribute, span, AttributeChildren(a, valueSpan))]) == Success(a)
  {
    if a.value.Some? {
      ValueRoundTrip(a.value.value, 1);
    }
  }

  /** A name with no value child is a flag, which differs from a value
      child whose string is empty. */
  lemma FlagIsNotEmptyString(span: string, name: T.Pair)
    ensures AttributeFromPest([T.Pair(T.Attribute, span, [name])]) == Success(Attribute(name.text, None))
    ensures AttributeFromPest([T.Pair(T.Attribute, span, [name, T.Pair(T.AttributeValueString, "", [])])]) ==
            Success(Attribute(name.text, Some(String(""))))
  {
  }

  /** The typed file's host nodes: each host's attributes as canonical pairs.
      The walk never reads the span of an `attribute` pair or of a value
      wrapper, so those spans are left empty. */
  function HostNodes(file: GendersFile): seq<HostNode>
  {
    seq(|file.hosts|, i requires 0 <= i < |file.hosts| =>
      HostNode(file.hosts[i].name,
               seq(|file.hosts[i].attributes|, j requires 0 <= j < |file.hosts[i].attributes| =>
                 T.Pair(T.Attribute, "", AttributeChildren(file.hosts[i].attributes[j], "")))))
  }

  /** The tree walk inverts `HostNodes`: nothing is lost, reordered or added. */
  lemma FileRoundTrip(file: GendersFile)
    ensures FileFromPest(HostNodes(file)) == Success(file)
  {
    var nodes := HostNodes(file);
    forall i | 0 <= i < |nodes|
      ensures AttributesFromPest(nodes[i].attributes) == Success(file.hosts[i].attributes)
    {
      var attrs := file.hosts[i].attributes;
      var ps := nodes[i].attributes;
      forall j | 0 <= j < |ps| ensures AttributeFromPest([ps[j]]) == Success(attrs[j]) {
        AttributeRoundTrip(attrs[j], "", "");
      }
      var r := AttributesFromPest(ps);
      assert r.value == attrs;
    }
    var r := FileFromPest(nodes);
    assert r.value.hosts == file.hosts;
  }
}

=== FILE: from_str.dfy ===
/** The two `str::parse` conversions the leaf rules apply to their span text:
    `bool::from_str` and `u64::from_str`. */
module FromStr {
  import opened Wrappers

  /** One past the largest `u64`. */
  const U64_LIMIT: nat := 0x1_0000_0000_0000_0000

  type u64 = n: nat | n < U64_LIMIT

  /** The only two spellings `bool::from_str` accepts. */
  function BoolText(b: bool): string
  {
    if b then "true" else "false"
  }

  /** `bool::from_str`: succeeds on exactly the two canonical spellings. */
  function ParseBool(s: string): (r: Option<bool>)
    ensures forall b: bool {:trigger BoolText(b)} :: r == Some(b) <==> s == BoolText(b)
  {
    if s == "true" then Some(true)
    else if s == "false" then Some(false)
    else None
  }

  predicate IsDigit(c: char)
  {
    '0' <= c <= '9'
  }

  predicate AllDigits(s: string)
  {
    forall i | 0 <= i < |s| :: IsDigit(s[i])
  }

  function DigitValue(c: char): (d: nat)
    requires IsDigit(c)
    ensures d < 10
  {
    c as int - '0' as int
  }

  function DigitChar(d: nat): (c: char)
    requires d < 10
    ensures IsDigit(c) && DigitValue(c) == d
  {
    ('0' as int + d) as char
  }

  /** The value of a string of decimal digits, most significant first. */
  function DecimalValue(s: string): nat
    requires AllDigits(s)
    decreases |s|
  {
    if |s| == 0 then 0 else DecimalValue(s[..|s| - 1]) * 10 + DigitValue(s[|s| - 1])
  }

  /** The canonical decimal spelling of `n`: no sign, no leading zeros. */
  function Decimal(n: nat): (s: string)
    ensures |s| > 0 && AllDigits(s)
    decreases n
  {
    if n < 10 then [DigitChar(n)] else Decimal(n / 10) + [DigitChar(n % 10)]
  }

  /** `u64::from_str`: an optional leading '+', then one or more ASCII digits
      whose value fits in 64 bits. A value past the range is an error, never
      a wrapped or truncated number. */
  function ParseU64(s: string): (r: Option<u64>)
    ensures |s| > 0 && AllDigits(s) ==>
              (r.Some? <==> DecimalValue(s) < U64_LIMIT) &&
              (r.Some? ==> r.value == DecimalValue(s))
    ensures r.Some? ==> (|s| > 0 && AllDigits(s)) || (|s| > 1 && s[0] == '+' && AllDigits(s[1..]))
  {
    var digits := if |s| > 0 && s[0] == '+' then s[1..] else s;
    if |digits| == 0 || !AllDigits(digits) then None
    else if DecimalValue(digits) < U64_LIMIT then Some(DecimalValue(digits))
    else None
  }

  lemma {:induction false} DecimalValueOfDecimal(n: nat)
    ensures DecimalValue(Decimal(n)) == n
    decreases n
  {
    var s := Decimal(n);
    if n >= 10 {
      DecimalValueOfDecimal(n / 10);
      assert s[..|s| - 1] == Decimal(n / 10);
    }
  }

  /** Decoding the canonical spelling of any `u64` gives it back. */
  lemma ParseU64OfDecimal(n: u64)
    ensures ParseU64(Decimal(n)) == Some(n)
  {
    DecimalValueOfDecimal(n);
  }

  /** Leading zeros do not change the value read. */
  lemma {:induction false} DecimalValueLeadingZero(s: string)
    requires AllDigits(s)
    ensures AllDigits("0" + s) && DecimalValue("0" + s) == DecimalValue(s)
    decreases |s|
  {
    var z := "0" + s;
    assert AllDigits(z) by {
      forall i | 0 <= i < |z| ensures IsDigit(z[i]) {
        if i > 0 { assert z[i] == s[i - 1]; }
      }
    }
    if |s| > 0 {
      var init := s[..|s| - 1];
      assert z[..|z| - 1] == "0" + init;
      DecimalValueLeadingZero(init);
    }
  }

  /** A leading '+' is accepted and ignored. */
  lemma PlusSignIgnored(s: string)
    requires |s| > 0 && AllDigits(s)
    ensures ParseU64("+" + s) == ParseU64(s)
  {
    assert ("+" + s)[1..] == s;
  }
}

=== FILE: pest_tree.dfy ===
/** The concrete syntax tree handed to the transformer: pest pairs, each
    tagged with the grammar rule that matched, the text of its span and its
    inner pairs in document order. The grammar itself (genders.pest) is not
    part of this model; trees are taken as given. */
module PestTree {

  /** The grammar rules the hand-written conversions tell apart. Every other
      rule of the grammar (`genders_file`, `host_entry`, `attribute_list`,
      `EOI`, ...) is `Other`, carrying its name. */
  datatype Rule =
    | Attribute
    | AttributeValue
    | AttributeValueBool
    | AttributeValueNumeric
    | AttributeValueString
    | Ident
    | Other(name: string)

  /** One pest pair: `as_rule()`, `as_span().as_str()` and `into_inner()`. */
  datatype Pair = Pair(rule: Rule, text: string, inner: seq<Pair>)
}

=== FILE: scenario.dfy ===
/** A worked example: two hosts, one with a numeric, a string and a flag
    attribute, the other with a numeric and a boolean one. */
module Scenario {
  import opened Wrappers
  import opened Ast
  import opened Transform
  import opened FromStr
  import T = PestTree

  function Leaf(rule: T.Rule, text: string): T.Pair
  {
    T.Pair(rule, text, [])
  }

  /** An `attribute` pair with a wrapped value leaf. */
  function Valued(name: string, rule: T.Rule, text: string): T.Pair
  {
    T.Pair(T.Attribute, name + "=" + text,
           [Leaf(T.Ident, name), T.Pair(T.AttributeValue, text, [Leaf(rule, text)])])
  }

  /** An `attribute` pair with no value child. */
  function Flag(name: string): T.Pair
  {
    T.Pair(T.Attribute, name, [Leaf(T.Ident, name)])
  }

  function ScenarioTree(): seq<HostNode>
  {
    [ HostNode("node1", [ Valued("cpu_count", T.AttributeValueNumeric, "4"),
                          Valued("rack", T.AttributeValueString, "a12"),
                          Flag("compute") ]),
      HostNode("node2", [ Valued("cpu_count", T.AttributeValueNumeric, "8"),
                          Valued("gpu", T.AttributeValueBool, "true") ]) ]
  }

  function ScenarioFile(): GendersFile
  {
    GendersFile([
      HostEntry("node1", [ Attribute("cpu_count", Some(Number(4))), Attribute("rack", Some(String("a12"))),
                           Attribute("compute", None) ]),
      HostEntry("node2", [ Attribute("cpu_count", Some(Number(8))), Attribute("gpu", Some(Boolean(true))) ]) ])
  }

  function ScenarioModel(): Genders
  {
    Genders(map[
      "node1" := map["cpu_count" := Some(Number(4)), "rack" := Some(String("a12")), "compute" := None],
      "node2" := map["cpu_count" := Some(Number(8)), "gpu" := Some(Boolean(true))]])
  }

  /** The tree walk types every value by its rule. */
  lemma ScenarioWalk()
    ensures FileFromPest(ScenarioTree()) == Success(ScenarioFile())
  {
    var tree := ScenarioTree();
    var file := ScenarioFile().hosts;
    assert ParseU64("4") == Some(4) && ParseU64("8") == Some(8);
    assert ParseBool("true") == Some(true);
    forall i | 0 <= i < 3 ensures AttributeFromPest([tree[0].attributes[i]]) == Success(file[0].attributes[i]) {
    }
    forall i | 0 <= i < 2 ensures AttributeFromPest([tree[1].attributes[i]]) == Success(file[1].attributes[i]) {
    }
    assert AttributesFromPest(tree[0].attributes).value == file[0].attributes;
    assert AttributesFromPest(tree[1].attributes).value == file[1].attributes;
    assert FileFromPest(tree).value.hosts == file;
  }

  /** The fold of the typed file is the expected lookup. */
  lemma ScenarioFold()
    ensures FromGendersFile(ScenarioFile()) == Success(ScenarioModel())
  {
    var file := ScenarioFile().hosts;
    HostNamesCons(file);
    HostNamesCons(file[1..]);
    assert file[1..][1..] == [];
    assert HostNames(file) == {"node1", "node2"};
    var a1, a2 := file[0].attributes, file[1].attributes;
    AttributeNamesCons(a1);
    AttributeNamesCons(a1[1..]);
    AttributeNamesCons(a1[2..]);
    assert a1[1..][1..] == a1[2..] && a1[2..][1..] == [];
    assert AttributeNames(a1) == {"cpu_count", "rack", "compute"};
    AttributeNamesCons(a2);
    AttributeNamesCons(a2[1..]);
    assert a2[1..][1..] == [];
    assert AttributeNames(a2) == {"cpu_count", "gpu"};
    assert WellFormed(file);
    ModelsUnique(ScenarioModel(), FromGendersFile(ScenarioFile()).value, file);
  }

  lemma ScenarioParses()
    ensures Parse(ScenarioTree()) == Success(ScenarioModel())
  {
    ScenarioWalk();
    ScenarioFold();
  }
}

=== FILE: transform.dfy ===
/** `TryFrom<GendersFile> for Genders`: folds the typed host entries, in
    document order, into a host -> (attribute name -> optional value) lookup,
    rejecting the whole file on the first duplicate attribute or host. */
module Transform {
  import opened Wrappers
  import opened Ast

  type AttributeMap = map<string, Option<AttributeValue>>

  type HostMap = map<string, AttributeMap>

  /** The finished model. */
  datatype Genders = Genders(hosts: HostMap)

  // ---------------------------------------------------------------------
  // The declarative description of a valid file and of its model.

  function AttributeNames(attrs: seq<Attribute>): set<string>
  {
    set i | 0 <= i < |attrs| :: attrs[i].name
  }

  function HostNames(entries: seq<HostEntry>): set<string>
  {
    set i | 0 <= i < |entries| :: entries[i].name
  }

  predicate AttributeNamesDistinct(attrs: seq<Attribute>)
  {
    forall i, j | 0 <= i < j < |attrs| :: attrs[i].name != attrs[j].name
  }

  predicate HostNamesDistinct(entries: seq<HostEntry>)
  {
    forall i, j | 0 <= i < j < |entries| :: entries[i].name != entries[j].name
  }

  predicate EveryHostAttributesDistinct(entries: seq<HostEntry>)
  {
    forall i | 0 <= i < |entries| :: AttributeNamesDistinct(entries[i].attributes)
  }

  /** The file a valid model can be built from. */
  predicate WellFormed(entries: seq<HostEntry>)
  {
    HostNamesDistinct(entries) && EveryHostAttributesDistinct(entries)
  }

  /** `m` holds exactly the attributes of `attrs`, each with its own value. */
  predicate Binds(m: AttributeMap, attrs: seq<Attribute>)
  {
    && m.Keys == AttributeNames(attrs)
    && forall i | 0 <= i < |attrs| :: m[attrs[i].name] == attrs[i].value
  }

  /** `g` is the model of `entries`: one key per host, each bound to exactly
      that host's attributes. */
  predicate Models(g: Genders, entries: seq<HostEntry>)
  {
    && g.hosts.Keys == HostNames(entries)
    && forall i | 0 <= i < |entries| :: Binds(g.hosts[entries[i].name], entries[i].attributes)
  }

  // ---------------------------------------------------------------------
  // The fold.

  /** The inner loop: inserts the attributes of `host` into `acc` in order;
      an insert that finds its name already present is a duplicate. */
  function InsertAttributes(host: string, attrs: seq<Attribute>, acc: AttributeMap): (r: Result<AttributeMap, Error>)
    ensures r.Success? <==> AttributeNamesDistinct(attrs) && AttributeNames(attrs) !! acc.Keys
    ensures r.Success? ==>
              && r.value.Keys == acc.Keys + AttributeNames(attrs)
              && (forall k | k in acc :: r.value[k] == acc[k])
              && (forall i | 0 <= i < |attrs| :: r.value[attrs[i].name] == attrs[i].value)
    ensures r.Failure? ==>
              && r.error.DuplicateAttribute? && r.error.host == host
              && exists j | 0 <= j < |attrs| ::
                   attrs[j].name == r.error.attribute &&
                   (r.error.attribute in acc || exists i | 0 <= i < j :: attrs[i].name == r.error.attribute)
    decreases |attrs|
  {
    if |attrs| == 0 then Success(acc)
    else if attrs[0].name in acc then Failure(DuplicateAttribute(attrs[0].name, host))
    else
      AttributeNamesCons(attrs);
      assert forall j | 0 <= j < |attrs| - 1 :: attrs[1..][j] == attrs[j + 1];
      InsertAttributes(host, attrs[1..], acc[attrs[0].name := attrs[0].value])
  }

  /** The outer loop: for each entry, builds its attribute map, then inserts
      it under the host name; an insert that finds the name present is a
      duplicate host. */
  function InsertHosts(entries: seq<HostEntry>, acc: HostMap): (r: Result<HostMap, Error>)
    ensures r.Success? <==> WellFormed(entries) && HostNames(entries) !! acc.Keys
    ensures r.Success? ==>
              && r.value.Keys == acc.Keys + HostNames(entries)
              && (forall k | k in acc :: r.value[k] == acc[k])
              && (forall i | 0 <= i < |entries| :: Binds(r.value[entries[i].name], entries[i].attributes))
    ensures r.Failure? ==> r.error.DuplicateAttribute? || r.error.DuplicateHost?
    decreases |entries|, 1
  {
    if |entries| == 0 then Success(acc)
    else
      var e := entries[0];
      HostNamesCons(entries);
      match InsertAttributes(e.name, e.attributes, map[])
      case Failure(err) => Failure(err)
      case Success(attrs) =>
        if e.name in acc then Failure(DuplicateHost(e.name))
        else
          InsertHostsStep(entries, acc, attrs);
          InsertHosts(entries[1..], acc[e.name := attrs])
  }

  lemma AttributeNamesCons(attrs: seq<Attribute>)
    requires |attrs| > 0
    ensures AttributeNames(attrs) == {attrs[0].name} + AttributeNames(attrs[1..])
    ensures AttributeNamesDistinct(attrs) <==>
              attrs[0].name !in AttributeNames(attrs[1..]) && AttributeNamesDistinct(attrs[1..])
  {
    forall x | x in AttributeNames(attrs) ensures x in {attrs[0].name} + AttributeNames(attrs[1..]) {
      var i :| 0 <= i < |attrs| && attrs[i].name == x;
      if i > 0 { assert attrs[1..][i - 1].name == x; }
    }
    assert forall i | 0 <= i < |attrs| - 1 :: attrs[1..][i] == attrs[i + 1];
  }

  lemma HostNamesCons(entries: seq<HostEntry>)
    requires |entries| > 0
    ensures HostNames(entries) == {entries[0].name} + HostNames(entries[1..])
    ensures WellFormed(entries) <==>
              && entries[0].name !in HostNames(entries[1..])
              && AttributeNamesDistinct(entries[0].attributes)
              && WellFormed(entries[1..])
  {
    forall x | x in HostNames(entries) ensures x in {entries[0].name} + HostNames(entries[1..]) {
      var i :| 0 <= i < |entries| && entries[i].name == x;
      if i > 0 { assert entries[1..][i - 1].name == x; }
    }
    assert forall i | 0 <= i < |entries| - 1 :: entries[1..][i] == entries[i + 1];
  }

  /** The outer loop's step: what the recursive call's contract gives back
      in terms of the whole list. */
  lemma InsertHostsStep(entries: seq<HostEntry>, acc: HostMap, attrs: AttributeMap)
    requires |entries| > 0 && entries[0].name !in acc
    requires Binds(attrs, entries[0].attributes) && AttributeNamesDistinct(entries[0].attributes)
    ensures var r := InsertHosts(entries[1..], acc[entries[0].name := attrs]);
            && (r.Success? <==> WellFormed(entries) && HostNames(entries) !! acc.Keys)
            && (r.Success? ==>
                  && r.value.Keys == acc.Keys + HostNames(entries)
                  && (forall k | k in acc :: r.value[k] == acc[k])
                  && (forall i | 0 <= i < |entries| :: Binds(r.value[entries[i].name], entries[i].attributes)))
    decreases |entries|, 0
  {
    HostNamesCons(entries);
    var r := InsertHosts(entries[1..], acc[entries[0].name := attrs]);
    if r.Success? {
      forall i | 0 <= i < |entries| ensures Binds(r.value[entries[i].name], entries[i].attributes) {
        if i > 0 { assert entries[i] == entries[1..][i - 1]; }
      }
    }
  }

  /** `Genders::try_from(GendersFile)`. */
  function FromGendersFile(file: GendersFile): (r: Result<Genders, Error>)
    ensures r.Success? <==> WellFormed(file.hosts)
    ensures r.Success? ==> Models(r.value, file.hosts)
    ensures |file.hosts| == 0 ==> r == Success(Genders(map[]))
  {
    match InsertHosts(file.hosts, map[])
    case Success(hosts) => Success(Genders(hosts))
    case Failure(e) => Failure(e)
  }

  /** The whole transformer: the tree walk, then the fold. A file that
      fails the tree walk anywhere is reported with a conversion error,
      before any duplicate check runs; a file that passes it succeeds exactly
      when it is well formed, and then yields its model. */
  function Parse(nodes: seq<HostNode>): (r: Result<Genders, Error>)
    ensures FileFromPest(nodes).Failure? ==> r.Failure? && IsConversionError(r.error)
    ensures FileFromPest(nodes).Success? ==> r == FromGendersFile(FileFromPest(nodes).value)
    ensures r.Success? <==> FileFromPest(nodes).Success? && WellFormed(FileFromPest(nodes).value.hosts)
    ensures r.Success? ==> Models(r.value, FileFromPest(nodes).value.hosts)
  {
    match FileFromPest(nodes)
    case Failure(e) => Failure(e)
    case Success(file) => FromGendersFile(file)
  }

  // ---------------------------------------------------------------------
  // Which error is reported.

  lemma PrefixCons<X>(s: seq<X>, k: nat)
    requires 0 < k <= |s|
    ensures s[..k][1..] == s[1..][..k - 1] && s[..k][0] == s[0]
  {
  }

  /** Within one host, the first attribute whose name was already seen is
      the one reported. */
  lemma {:induction false} FirstDuplicateInList(host: string, attrs: seq<Attribute>, acc: AttributeMap, j: nat)
    requires j < |attrs|
    requires AttributeNamesDistinct(attrs[..j]) && AttributeNames(attrs[..j]) !! acc.Keys
    requires attrs[j].name in acc.Keys + AttributeNames(attrs[..j])
    ensures InsertAttributes(host, attrs, acc) == Failure(DuplicateAttribute(attrs[j].name, host))
    decreases j
  {
    if j > 0 {
      var pre := attrs[..j];
      AttributeNamesCons(pre);
      PrefixCons(attrs, j);
      assert attrs[0].name in AttributeNames(pre);
      FirstDuplicateInList(host, attrs[1..], acc[attrs[0].name := attrs[0].value], j - 1);
    }
  }

  /** Across hosts, with the hosts before `k` valid: a host whose own list
      repeats an attribute is reported for it, even if its name repeats too. */
  lemma {:induction false} FirstDuplicateAttributeIn(entries: seq<HostEntry>, acc: HostMap, k: nat, j: nat)
    requires k < |entries|
    requires WellFormed(entries[..k]) && HostNames(entries[..k]) !! acc.Keys
    requires j < |entries[k].attributes|
    requires AttributeNamesDistinct(entries[k].attributes[..j])
    requires entries[k].attributes[j].name in AttributeNames(entries[k].attributes[..j])
    ensures InsertHosts(entries, acc) ==
            Failure(DuplicateAttribute(entries[k].attributes[j].name, entries[k].name))
    decreases k
  {
    var e := entries[0];
    if k == 0 {
      FirstDuplicateInList(e.name, e.attributes, map[], j);
    } else {
      var pre := entries[..k];
      HostNamesCons(pre);
      PrefixCons(entries, k);
      assert e.name in HostNames(pre);
      var attrs := InsertAttributes(e.name, e.attributes, map[]);
      assert attrs.Success?;
      FirstDuplicateAttributeIn(entries[1..], acc[e.name := attrs.value], k - 1, j);
    }
  }

  /** Across hosts, with the hosts before `k` valid: a host with distinct
      attributes whose name was already seen is a duplicate host. */
  lemma {:induction false} FirstDuplicateHostIn(entries: seq<HostEntry>, acc: HostMap, k: nat)
    requires k < |entries|
    requires WellFormed(entries[..k]) && HostNames(entries[..k]) !! acc.Keys
    requires AttributeNamesDistinct(entries[k].attributes)
    requires entries[k].name in acc.Keys + HostNames(entries[..k])
    ensures InsertHosts(entries, acc) == Failure(DuplicateHost(entries[k].name))
    decreases k
  {
    var e := entries[0];
    if k > 0 {
      var pre := entries[..k];
      HostNamesCons(pre);
      PrefixCons(entries, k);
      assert e.name in HostNames(pre);
      var attrs := InsertAttributes(e.name, e.attributes, map[]);
      assert attrs.Success?;
      FirstDuplicateHostIn(entries[1..], acc[e.name := attrs.value], k - 1);
    }
  }

  /** A file whose first offending host `k` repeats attribute `j` of its own
      list fails with that attribute and host; the attribute check runs
      before the host check. */
  lemma DuplicateAttributeReported(file: GendersFile, k: nat, j: nat)
    requires k < |file.hosts| && WellFormed(file.hosts[..k])
    requires j < |file.hosts[k].attributes|
    requires AttributeNamesDistinct(file.hosts[k].attributes[..j])
    requires file.hosts[k].attributes[j].name in AttributeNames(file.hosts[k].attributes[..j])
    ensures FromGendersFile(file) ==
            Failure(DuplicateAttribute(file.hosts[k].attributes[j].name, file.hosts[k].name))
  {
    FirstDuplicateAttributeIn(file.hosts, map[], k, j);
  }

  /** A file whose first offending host `k` has distinct attributes but a
      name already used fails with that host. */
  lemma DuplicateHostReported(file: GendersFile, k: nat)
    requires k < |file.hosts| && WellFormed(file.hosts[..k])
    requires AttributeNamesDistinct(file.hosts[k].attributes)
    requires file.hosts[k].name in HostNames(file.hosts[..k])
    ensures FromGendersFile(file) == Failure(DuplicateHost(file.hosts[k].name))
  {
    FirstDuplicateHostIn(file.hosts, map[], k);
  }

  /** Two attributes of `attrs` are called `name`. */
  predicate Repeats(attrs: seq<Attribute>, name: string)
  {
    exists i, j | 0 <= i < j < |attrs| :: attrs[i].name == name && attrs[j].name == name
  }

  /** A failure of the outer loop names something that really repeats: a
      duplicate host is an entry whose name was already present, in `acc` or
      earlier in the list; a duplicate attribute is an entry of that host
      whose list repeats that attribute. */
  lemma {:induction false} ErrorIsGenuine(entries: seq<HostEntry>, acc: HostMap)
    requires InsertHosts(entries, acc).Failure?
    ensures var e := InsertHosts(entries, acc).error;
            && (e.DuplicateHost? ==>
                  exists k | 0 <= k < |entries| ::
                    entries[k].name == e.host &&
                    (e.host in acc || exists i | 0 <= i < k :: entries[i].name == e.host))
            && (e.DuplicateAttribute? ==>
                  exists k | 0 <= k < |entries| ::
                    entries[k].name == e.host && Repeats(entries[k].attributes, e.attribute))
    decreases |entries|
  {
    var e := entries[0];
    var err := InsertHosts(entries, acc).error;
    var attrs := InsertAttributes(e.name, e.attributes, map[]);
    if attrs.Failure? {
      assert Repeats(e.attributes, err.attribute);
    } else if e.name in acc {
      assert entries[0].name == err.host;
    } else {
      var acc' := acc[e.name := attrs.value];
      ErrorIsGenuine(entries[1..], acc');
      assert err == InsertHosts(entries[1..], acc').error;
      if err.DuplicateHost? {
        var k :| 0 <= k < |entries[1..]| && entries[1..][k].name == err.host &&
                 (err.host in acc' || exists i | 0 <= i < k :: entries[1..][i].name == err.host);
        assert entries[k + 1].name == err.host;
        if err.host !in acc && err.host != e.name {
          var i :| 0 <= i < k && entries[1..][i].name == err.host;
          assert entries[i + 1].name == err.host;
        }
      } else {
        var k :| 0 <= k < |entries[1..]| && entries[1..][k].name == err.host &&
                 Repeats(entries[1..][k].attributes, err.attribute);
        assert entries[k + 1] == entries[1..][k];
      }
    }
  }

  // ---------------------------------------------------------------------
  // The model is determined by the file.

  /** Two models of the same entries are equal: `Models` leaves no freedom,
      so nothing is merged, dropped or invented. */
  lemma ModelsUnique(g1: Genders, g2: Genders, entries: seq<HostEntry>)
    requires Models(g1, entries) && Models(g2, entries)
    ensures g1 == g2
  {
    forall h | h in g1.hosts.Keys ensures g1.hosts[h] == g2.hosts[h] {
      var i :| 0 <= i < |entries| && entries[i].name == h;
      var attrs := entries[i].attributes;
      var m1, m2 := g1.hosts[h], g2.hosts[h];
      forall a | a in m1.Keys ensures m1[a] == m2[a] {
        var j :| 0 <= j < |attrs| && attrs[j].name == a;
      }
    }
  }

  /** The tree walk followed by the fold, on the canonical trees of a typed
      file, is exactly the fold of that file. */
  lemma ParseRoundTrip(file: GendersFile)
    ensures Parse(HostNodes(file)) == FromGendersFile(file)
    ensures WellFormed(file.hosts) ==> Parse(HostNodes(file)).Success? &&
                                       Models(Parse(HostNodes(file)).value, file.hosts)
  {
    FileRoundTrip(file);
  }
}

=== FILE: wrappers.dfy ===
/** The Option and Result datatypes: `Option` for the source's `Option<T>`
    and `Result` for its `Result<T, E>`. */
module Wrappers {

  datatype Option<+T> = None | Some(value: T)

  datatype Result<+R, +E> = Success(value: R) | Failure(error: E)
}
